=== FILE: README.md ===
# Bronze Man Mode — a Dafny model of the unlock registry and exchange masking

The Bronze Man plugin for the RuneLite client lets a player buy an item on
the Grand Exchange only after obtaining it some other way. It keeps, per
player profile, an ordered list of canonical item IDs ("unlocks"). It grows
that list from item-container change events. It saves
the list after every new unlock as a text file with one decimal ID per line.
It reloads the list (or seeds coins and a bond) on login. On every game tick
it greys out Grand Exchange search results whose item is still locked.

This project models that logic as pure functions over immutable values and
proves its properties:

- `optional.dfy` — `Optional.Option`, a Java value that may be absent: `None` stands for a null reference or for a call that threw.
- `decimal.dfy` — `Integer.toString` and `Integer.parseInt` on Java `int`
  (`Decimal.Int32`), and the round trip between them.
- `linetext.dfy` — what `PrintWriter.println` writes (with `\n` or `\r\n`
  line separators) and what a `BufferedReader.readLine` loop reads back.
- `unlockrecord.dfy` — the record format: serialise the registry to lines,
  and parse lines back until the first malformed one.
- `bronzeman.dfy` — the plugin state (registry, overlay notifications in
  order, profile file), the inventory scan, `queueItemUnlock`, save, load
  and default seeding.
- `exchangemask.dfy` — the `onGameTick` walk over the result widgets in
  groups of three.
- `scenario.dfy` — a worked session on concrete values.

The host client's metadata lookups `ItemManager.canonicalize` and
`getItemComposition(id).getNote()` are the two function fields of
`Bronzeman.ItemCatalog`. They are left uninterpreted, so every property
holds for any catalog. The profile file is a value `Absent | Present(text) |
Failing`. `Failing` stands for a file system on which every access throws.
Widget presence and visibility are booleans (`ExchangeMask.ExchangeWidgets`).
The children of widget (162, 53) are a sequence of optional records.

`COINS_995` is 995 and `OLD_SCHOOL_BOND` is 13190. These are the values of
RuneLite's `ItemID` table, which is not part of this model.

Two points where the code behaves differently from what one might expect; the model follows the code in both:

- A malformed line in the record does not get skipped with loading going on.
  `Integer.parseInt` throws out of the read loop, so the load keeps the items
  read before that line and ignores the rest.
- The registry is not deduplicated on load. The scan never appends an ID
  that is already registered, so a list it builds stays duplicate-free. The
  read loop, however, appends every line that parses, so a record holding
  an ID twice loads with that ID twice (`Scenario.DuplicateLinesKept`).

The class as written uses an `itemManager` field that it never declares;
the model takes it to be the injected `ItemManager`.

## Model

| member | source | states |
|---|---|---|
| Decimal.ToDecimal | src/net/runelite/client/plugins/bronzeman/BronzemanPlugin.java:177 | The text `println(itemId)` writes for an item is in canonical decimal form: digits without a redundant leading zero, and a minus sign only before a non-zero magnitude |
| Decimal.ParseInt | src/net/runelite/client/plugins/bronzeman/BronzemanPlugin.java:201 | `Integer.parseInt` accepts only text that starts with a digit or a sign, and yields a negative value only after a leading '-'; anything else is the exception |
| Decimal.ParseToDecimal | src/net/runelite/client/plugins/bronzeman/BronzemanPlugin.java:177-201 | Parsing the printed form of any Java `int` gives that `int` back |
| Decimal.ParsedIsPrintedIffCanonical | src/net/runelite/client/plugins/bronzeman/BronzemanPlugin.java:201 | A line that parses is the printed form of its value exactly when it is canonical, so "+5", "007" and "-0" load but are not what a save writes |
| Decimal.NatDigits | src/net/runelite/client/plugins/bronzeman/BronzemanPlugin.java:177 | The digits of a non-negative value are non-empty and canonical, and start with '0' only for zero |
| LineText.LineEnd | src/net/runelite/client/plugins/bronzeman/BronzemanPlugin.java:200 | `readLine` stops at the first '\n' or '\r': the text before it holds no terminator |
| LineText.ReadLines | src/net/runelite/client/plugins/bronzeman/BronzemanPlugin.java:198-202 | Every line the read loop sees is free of line terminators |
| LineText.ReadOneLine | src/net/runelite/client/plugins/bronzeman/BronzemanPlugin.java:200 | One `readLine` consumes exactly one line and its `\n` or `\r\n` terminator |
| LineText.WriteLines | src/net/runelite/client/plugins/bronzeman/BronzemanPlugin.java:177 | The text of `println` for each line in turn. `LineText.ReadWriteLines` states that the read loop recovers exactly these lines |
| LineText.ReadWriteLines | src/net/runelite/client/plugins/bronzeman/BronzemanPlugin.java:175-202 | Reading back lines written with `println` gives the same lines, for either line separator, when no line contains a terminator |
| UnlockRecord.Serialize | src/net/runelite/client/plugins/bronzeman/BronzemanPlugin.java:176-178 | The lines a save prints. `UnlockRecord.SerializedLinesParse` states that there is one per item, in order, each a canonical single line parsing back to its item |
| UnlockRecord.SerializedLinesParse | src/net/runelite/client/plugins/bronzeman/BronzemanPlugin.java:176-178 | A save writes one line per item, in registry order. Each line is a single canonical decimal line that parses back to its item |
| UnlockRecord.ParseLines | src/net/runelite/client/plugins/bronzeman/BronzemanPlugin.java:200-207 | The load keeps exactly the values of the longest prefix of lines that parse. The first line that does not parse ends the load, and no later line is read |
| UnlockRecord.RecordItems | src/net/runelite/client/plugins/bronzeman/BronzemanPlugin.java:198-202 | The registry read from a record is the values of the longest run of leading `readLine` results that parse. The first line that fails to parse ends it |
| UnlockRecord.ParseSerialized | src/net/runelite/client/plugins/bronzeman/BronzemanPlugin.java:176-202 | Parsing the saved lines gives back the identical registry |
| UnlockRecord.RecordRoundTrip | src/net/runelite/client/plugins/bronzeman/BronzemanPlugin.java:171-203 | Saving to file text and reading that text back gives the identical registry, in order |
| UnlockRecord.MalformedLineStopsLoad | src/net/runelite/client/plugins/bronzeman/BronzemanPlugin.java:200-207 | With `j` good lines before a malformed one, the load yields exactly those `j` values, whatever follows |
| Bronzeman.SavePlayerUnlocks | src/net/runelite/client/plugins/bronzeman/BronzemanPlugin.java:171-183 | A save rewrites the whole record from the registry and leaves the registry and notifications alone. On a failing file system the record is untouched |
| Bronzeman.QueueItemUnlock | src/net/runelite/client/plugins/bronzeman/BronzemanPlugin.java:158-162 | Appends the ID without checking for duplicates and reports it to the overlay. Afterwards the record is exactly the serialised registry, unless the file system fails |
| Bronzeman.ScanSlot | src/net/runelite/client/plugins/bronzeman/BronzemanPlugin.java:104-114 | One slot appends its canonical ID (never the raw ID) exactly when it is eligible and that ID is not yet registered. Otherwise the state is unchanged. After an append the record is exactly the serialised registry, unless the file system fails |
| Bronzeman.ScanSlots | src/net/runelite/client/plugins/bronzeman/BronzemanPlugin.java:103-115 | The slot loop only appends: the old registry is a prefix of the new one. The overlay gets the appended IDs in order. If nothing is appended nothing changes. Otherwise the record is exactly the serialised final registry, unless the file system fails |
| Bronzeman.ScanSlotsFresh | src/net/runelite/client/plugins/bronzeman/BronzemanPlugin.java:112-113 | Every appended ID was absent before. A duplicate-free registry stays duplicate-free even when several slots share a canonical ID, because membership is re-checked after each append |
| Bronzeman.ScanSlotsCovered | src/net/runelite/client/plugins/bronzeman/BronzemanPlugin.java:112-113 | If every eligible slot's canonical ID is already registered, the scan changes nothing: no append, no save, no notification |
| Bronzeman.ScanSlotsContents | src/net/runelite/client/plugins/bronzeman/BronzemanPlugin.java:103-115 | After the loop, an ID is registered exactly when it was registered before or is the canonical ID of some eligible slot |
| Bronzeman.Accepted | src/net/runelite/client/plugins/bronzeman/BronzemanPlugin.java:105-111 | The per-slot eligibility rule. Its meaning is stated by `Bronzeman.RejectedSlotIgnored` (a failing slot has no effect) and `Bronzeman.SingleSlotEvent` (a passing slot with a new canonical ID is appended) |
| Bronzeman.AcceptedIdsSplit | src/net/runelite/client/plugins/bronzeman/BronzemanPlugin.java:103-111 | The eligible canonical IDs of an event are those of its first slot together with those of the rest |
| Bronzeman.OnItemContainerChanged | src/net/runelite/client/plugins/bronzeman/BronzemanPlugin.java:101-117 | A container outside the allow-list {0, 93, 94, 95, 140, 141, 221, 390, 581, 612, 626} (lines 49-60) leaves the state unchanged. Otherwise the registry only grows, by exactly the new eligible canonical IDs, and stays duplicate-free. If nothing is appended nothing changes at all (no save). After an append the record is exactly the serialised registry, unless the file system fails. The line separator and the file system's failing state are never changed |
| Bronzeman.ScanSlotsAppend | src/net/runelite/client/plugins/bronzeman/BronzemanPlugin.java:103-115 | Scanning the slots of an event is scanning any split of them in turn |
| Bronzeman.RejectedSlotIgnored | src/net/runelite/client/plugins/bronzeman/BronzemanPlugin.java:105-111 | Some slots have no effect at all: raw ID at most 1, quantity not positive, or a raw ID that differs from its canonical ID without note value 799. The event behaves as if such a slot were absent |
| Bronzeman.SingleSlotEvent | src/net/runelite/client/plugins/bronzeman/BronzemanPlugin.java:105-114 | For one slot from an allow-listed container, the registry gains `canonicalize(id)` exactly when all of these hold: the ID is canonical or its note is 799, the ID exceeds 1, the quantity is positive, and the canonical ID is new. Otherwise it is unchanged |
| Bronzeman.ScanIdempotent | src/net/runelite/client/plugins/bronzeman/BronzemanPlugin.java:112-113 | Delivering the same container event a second time changes nothing |
| Bronzeman.UnlockDefaultItems | src/net/runelite/client/plugins/bronzeman/BronzemanPlugin.java:165-168 | Appends coins and then the bond, in that order, and reports both to the overlay. Afterwards the record is exactly the serialised registry, unless the file system fails. The line separator is unchanged |
| Bronzeman.LoadPlayerUnlocks | src/net/runelite/client/plugins/bronzeman/BronzemanPlugin.java:186-208 | The previous registry is discarded. With no record, the registry is exactly [995, 13190] and the new record is exactly the two lines "995" and "13190". With a record, the registry is the values of its longest parsable prefix of lines. On a failing file system the registry is empty |
| Bronzeman.DefaultRecordText | src/net/runelite/client/plugins/bronzeman/BronzemanPlugin.java:165-178 | The record written for the default items is "995" and "13190", each followed by the line separator |
| Bronzeman.LoadAfterSave | src/net/runelite/client/plugins/bronzeman/BronzemanPlugin.java:171-208 | Loading right after a successful save reproduces the saved state exactly |
| ExchangeMask.Active | src/net/runelite/client/plugins/bronzeman/BronzemanPlugin.java:138-145 | The four gates of the tick. `ExchangeMask.OnGameTick` states that nothing changes unless all are open |
| ExchangeMask.MaskedAt | src/net/runelite/client/plugins/bronzeman/BronzemanPlugin.java:149-153 | The per-entry outcome of the tick: presence and item ID are kept. `ExchangeMask.MaskChangesOnlyLockedGroups` states which groups are hidden and dimmed |
| ExchangeMask.Masked | src/net/runelite/client/plugins/bronzeman/BronzemanPlugin.java:146-154 | The tick never turns a null entry into a widget or back, and never changes an item ID. Only `hidden` and `opacity` are written |
| ExchangeMask.MaskListing | src/net/runelite/client/plugins/bronzeman/BronzemanPlugin.java:146-154 | The stride-3 loop sets every entry to its per-index reference. In a complete, non-null-headed group whose third item is not unlocked, the head is hidden and the other two get opacity 70. Every other entry, including a short trailing group, is unchanged |
| ExchangeMask.MaskGroupStep | src/net/runelite/client/plugins/bronzeman/BronzemanPlugin.java:147-153 | One pass of the loop body masks exactly the group at `i` and nothing else, so the entries before `i + 3` match the reference and the rest are untouched |
| ExchangeMask.OnGameTick | src/net/runelite/client/plugins/bronzeman/BronzemanPlugin.java:137-155 | If the window is missing or hidden, the chat box is missing, widget (162, 53) is missing or its children are null, nothing changes, whatever the listing holds. Otherwise the listing is masked as above |
| ExchangeMask.MaskIdempotent | src/net/runelite/client/plugins/bronzeman/BronzemanPlugin.java:146-154 | A second tick over an already masked listing changes nothing |
| ExchangeMask.MaskChangesOnlyLockedGroups | src/net/runelite/client/plugins/bronzeman/BronzemanPlugin.java:147-153 | A complete headed group whose item is unlocked is left exactly as it was. One whose item is locked gets its head hidden and its other two widgets dimmed to opacity 70 |
| ExchangeMask.MaskAntitone | src/net/runelite/client/plugins/bronzeman/BronzemanPlugin.java:149 | Unlocking more items never masks more: an entry changed under a larger registry is changed identically under a smaller one. A listing the tick handles safely under a registry is also safe under a larger one |
| Scenario.NewProfileSession | src/net/runelite/client/plugins/bronzeman/BronzemanPlugin.java:101-208 | A new profile is seeded with [995, 13190]. An inventory event holding item 1205, its noted form, a non-799 variant and an empty slot then unlocks 1205 once. The record reloads to that same registry |
| Scenario.InventoryScan | src/net/runelite/client/plugins/bronzeman/BronzemanPlugin.java:103-114 | On the seeded registry, the inventory event appends only 1205: the non-799 variant and the empty slot are rejected, and the noted form maps to the already registered 1205. The record then holds the three IDs |
| Scenario.DuplicateLinesKept | src/net/runelite/client/plugins/bronzeman/BronzemanPlugin.java:198-202 | A record with the line "5" twice loads as [5, 5]: the read loop does not deduplicate |
| Scenario.SessionTick | src/net/runelite/client/plugins/bronzeman/BronzemanPlugin.java:146-154 | With 1205 unlocked, its group is untouched, the group for 999 is hidden and dimmed, and the short trailing group is untouched |

## Left out

- `loadUnlockImage`: downloading and decoding the unlock picture is network and image I/O with no decision logic.
- The overlay: `BronzeManOverlay.addItemUnlock` is modelled only as the ordered `notices` log of reported IDs. Drawing and `OverlayManager` registration are not modelled.
- `startUp`, `shutDown` and `onGameStateChanged`: these only create or drop the list and forward a login to `LoadPlayerUnlocks`.
- `onWidgetLoaded`: the widget lookups are not modelled. Their outcome is the booleans of `ExchangeWidgets`.
- File-system details: the profile directory, `mkdirs`, `createNewFile`, the reader and writer objects, and `printStackTrace`. Only their effect is kept: whether the record exists, its text, and a file system on which every access throws.
- A save failing halfway through an event: the file system either always works or always throws during one event.
- Null item slots: the code dereferences a slot before its null check, and the host never supplies null slots, so `Item` is never null.
- ExchangeMask.MaskListing: requires, in every complete group with a non-null head, a non-null third widget, and a non-null second widget when the third's item is not unlocked. These are exactly the entries the loop dereferences without a null check. The `NullPointerException` it would throw otherwise, after possibly hiding the head, is not modelled.
- ExchangeMask.OnGameTick: when every gate is open and the children array is non-null, the same requirement as `MaskListing`, for the same reason. With a gate closed or null children the listing is unconstrained, since the tick returns before reading it.
- Decimal.ParseInt: only the ASCII digits '0'..'9' are modelled. `Integer.parseInt` also accepts other Unicode decimal digits, which a save never writes.
- Internals of `ItemManager.canonicalize` and `ItemComposition.getNote`: these are external lookups, kept as uninterpreted functions.
- Exceptions from those lookups: both run for every slot before the ID and quantity checks, and nothing in `onItemContainerChanged` catches an exception. If either threw (say on the empty-slot ID -1), the remaining slots of the event would be skipped. The total functions of `ItemCatalog` cannot show this.

=== FILE: bronzeman.dfy ===
/** The unlock registry of the Bronze Man plugin: the inventory scan that
    records newly obtained items, the write-through save after each unlock,
    and the load (or default seeding) on login. */
module Bronzeman {
  import opened Optional
  import opened Decimal
  import opened LineText
  import opened UnlockRecord

  /** Containers whose contents count as evidence of ownership: fishing
      trawler reward, inventory, equipment, bank, puzzle box, Barrows chest,
      Monkey Madness puzzle, Miscellania reward, Chambers of Xeric chest,
      Theatre of Blood chest and the Farming Guild seed vault. */
  const OWNED_INVENTORY_IDS: set<int> := {0, 93, 94, 95, 140, 141, 221, 390, 581, 612, 626}

  /** The `getNote()` value of a proper noted copy of a base item. */
  const NOTED_ITEM_NOTE: int := 799

  const COINS_995: Int32 := 995
  const OLD_SCHOOL_BOND: Int32 := 13190

  /** One slot of an item container; empty slots carry an ID of -1 or 0
      and quantity 0. */
  datatype Item = Item(id: Int32, quantity: Int32)

  /** The item-metadata lookups of the host client, left uninterpreted:
      `ItemManager.canonicalize` and `getItemComposition(id).getNote()`. */
  datatype ItemCatalog = ItemCatalog(canonicalize: Int32 -> Int32, note: Int32 -> Int32)

  /** The profile's `bronzeman-unlocks.txt`: missing, present with some
      text, or on a file system where every access throws. */
  datatype ProfileFile = Absent | Present(text: string) | Failing

  /** The plugin's state: the registry in unlock order, the items handed to
      the overlay in order, the profile file, and the platform separator
      `println` uses. */
  datatype Plugin = Plugin(unlocked: seq<Int32>, notices: seq<Int32>, file: ProfileFile, sep: LineSeparator)

  predicate NoDuplicates(s: seq<int>) {
    forall i, j :: 0 <= i < j < |s| ==> s[i] != s[j]
  }

  /** The per-slot eligibility rule of `onItemContainerChanged`: a noted
      variant counts only when its note value is 799, and the raw ID must
      exceed 1 with a positive quantity. */
  predicate Accepted(cat: ItemCatalog, it: Item) {
    && (it.id == cat.canonicalize(it.id) || cat.note(it.id) == NOTED_ITEM_NOTE)
    && it.id > 1
    && it.quantity > 0
  }

  /** The canonical IDs of all eligible slots of an event, as a set. */
  function AcceptedIds(cat: ItemCatalog, slots: seq<Item>): set<Int32> {
    set j | 0 <= j < |slots| && Accepted(cat, slots[j]) :: cat.canonicalize(slots[j].id)
  }

  /** `savePlayerUnlocks`: the whole registry is written over the record;
      when the file system throws, the state is left as it was. */
  function SavePlayerUnlocks(p: Plugin): (r: Plugin)
    ensures r.unlocked == p.unlocked && r.notices == p.notices && r.sep == p.sep
    ensures r.file.Failing? <==> p.file.Failing?
    ensures !p.file.Failing? ==> r.file == Present(RecordText(p.unlocked, p.sep))
  {
    if p.file.Failing? then p
    else
      p.(file := Present(RecordText(p.unlocked, p.sep)))
  }

  /** `queueItemUnlock`: append (without any duplicate check of its own),
      notify the overlay, and save at once. */
  function QueueItemUnlock(p: Plugin, id: Int32): (r: Plugin)
    ensures r.unlocked == p.unlocked + [id]
    ensures r.notices == p.notices + [id]
    ensures r.sep == p.sep
    ensures r.file.Failing? <==> p.file.Failing?
    ensures !p.file.Failing? ==> r.file == Present(RecordText(r.unlocked, r.sep))
  {
    SavePlayerUnlocks(p.(unlocked := p.unlocked + [id], notices := p.notices + [id]))
  }

  /** One iteration of the slot loop of `onItemContainerChanged`. */
  function ScanSlot(p: Plugin, cat: ItemCatalog, it: Item): (r: Plugin)
    ensures r.unlocked == if Accepted(cat, it) && cat.canonicalize(it.id) !in p.unlocked
                          then p.unlocked + [cat.canonicalize(it.id)] else p.unlocked
    ensures r.notices == p.notices + r.unlocked[|p.unlocked|..]
    ensures r.sep == p.sep
    ensures r.file.Failing? <==> p.file.Failing?
    ensures |r.unlocked| == |p.unlocked| ==> r == p
    ensures |r.unlocked| > |p.unlocked| && !p.file.Failing? ==> r.file == Present(RecordText(r.unlocked, r.sep))
  {
    var realId := cat.canonicalize(it.id);
    if Accepted(cat, it) && realId !in p.unlocked then QueueItemUnlock(p, realId) else p
  }

  /** The slot loop of `onItemContainerChanged`, one slot at a time; the
      registry is re-checked after every append. */
  function ScanSlots(p: Plugin, cat: ItemCatalog, slots: seq<Item>): (r: Plugin)
    ensures p.unlocked <= r.unlocked
    ensures r.notices == p.notices + r.unlocked[|p.unlocked|..]
    ensures r.sep == p.sep
    ensures r.file.Failing? <==> p.file.Failing?
    ensures |r.unlocked| == |p.unlocked| ==> r == p
    ensures |r.unlocked| > |p.unlocked| && !p.file.Failing? ==> r.file == Present(RecordText(r.unlocked, r.sep))
    decreases |slots|
  {
    if |slots| == 0 then p
    else
      var next := ScanSlot(p, cat, slots[0]);
      var r := ScanSlots(next, cat, slots[1..]);
      assert p.unlocked <= next.unlocked;
      assert next.unlocked <= r.unlocked;
      assert r.unlocked[|p.unlocked|..] == next.unlocked[|p.unlocked|..] + r.unlocked[|next.unlocked|..];
      r
  }

  /** Every ID a scan appends was absent before it, so a duplicate-free
      registry stays duplicate-free, even when several slots of one event
      share a canonical ID. */
  lemma {:induction false} ScanSlotsFresh(p: Plugin, cat: ItemCatalog, slots: seq<Item>)
    ensures forall k :: |p.unlocked| <= k < |ScanSlots(p, cat, slots).unlocked| ==>
              ScanSlots(p, cat, slots).unlocked[k] !in p.unlocked
    ensures NoDuplicates(p.unlocked) ==> NoDuplicates(ScanSlots(p, cat, slots).unlocked)
    decreases |slots|
  {
    if |slots| > 0 {
      var next := ScanSlot(p, cat, slots[0]);
      var r := ScanSlots(p, cat, slots);
      assert r == ScanSlots(next, cat, slots[1..]);
      ScanSlotsFresh(next, cat, slots[1..]);
      assert next.unlocked <= r.unlocked;
      forall k | |p.unlocked| <= k < |r.unlocked|
        ensures r.unlocked[k] !in p.unlocked
      {
        if k >= |next.unlocked| {
          assert r.unlocked[k] !in next.unlocked;
        } else {
          assert r.unlocked[k] == next.unlocked[k];
        }
      }
      if NoDuplicates(p.unlocked) {
        assert NoDuplicates(next.unlocked);
      }
    }
  }

  /** When every eligible slot's canonical ID is already registered, a scan
      changes nothing. */
  lemma {:induction false} ScanSlotsCovered(p: Plugin, cat: ItemCatalog, slots: seq<Item>)
    requires AcceptedIds(cat, slots) <= set x | x in p.unlocked
    ensures ScanSlots(p, cat, slots) == p
    decreases |slots|
  {
    if |slots| > 0 {
      AcceptedIdsSplit(cat, slots);
      assert ScanSlot(p, cat, slots[0]) == p;
      ScanSlotsCovered(p, cat, slots[1..]);
    }
  }

  /** After a scan the registry holds exactly what it held before plus the
      canonical IDs of the eligible slots. */
  lemma {:induction false} ScanSlotsContents(p: Plugin, cat: ItemCatalog, slots: seq<Item>)
    ensures forall x :: x in ScanSlots(p, cat, slots).unlocked <==> x in p.unlocked || x in AcceptedIds(cat, slots)
    decreases |slots|
  {
    if |slots| > 0 {
      var next := ScanSlot(p, cat, slots[0]);
      AcceptedIdsSplit(cat, slots);
      ScanSlotsContents(next, cat, slots[1..]);
    }
  }

  lemma AcceptedIdsSplit(cat: ItemCatalog, slots: seq<Item>)
    requires |slots| > 0
    ensures AcceptedIds(cat, slots)
         == (if Accepted(cat, slots[0]) then {cat.canonicalize(slots[0].id)} else {}) + AcceptedIds(cat, slots[1..])
  {
  }

  /** `onItemContainerChanged`: only allow-listed containers are scanned. */
  function OnItemContainerChanged(p: Plugin, cat: ItemCatalog, containerId: int, slots: seq<Item>): (r: Plugin)
    ensures containerId !in {0, 93, 94, 95, 140, 141, 221, 390, 581, 612, 626} ==> r == p
    ensures p.unlocked <= r.unlocked
    ensures forall k :: |p.unlocked| <= k < |r.unlocked| ==> r.unlocked[k] !in p.unlocked
    ensures forall x :: x in r.unlocked <==> x in p.unlocked || (containerId in OWNED_INVENTORY_IDS && x in AcceptedIds(cat, slots))
    ensures NoDuplicates(p.unlocked) ==> NoDuplicates(r.unlocked)
    ensures r.notices == p.notices + r.unlocked[|p.unlocked|..]
    ensures r.sep == p.sep
    ensures r.file.Failing? <==> p.file.Failing?
    ensures |r.unlocked| == |p.unlocked| ==> r == p
    ensures |r.unlocked| > |p.unlocked| && !p.file.Failing? ==> r.file == Present(RecordText(r.unlocked, r.sep))
  {
    if containerId in OWNED_INVENTORY_IDS then
      var r := ScanSlots(p, cat, slots);
      ScanSlotsContents(p, cat, slots);
      ScanSlotsFresh(p, cat, slots);
      r
    else p
  }

  /** Scanning an event slot by slot is scanning its parts in turn. */
  lemma {:induction false} ScanSlotsAppend(p: Plugin, cat: ItemCatalog, a: seq<Item>, b: seq<Item>)
    ensures ScanSlots(p, cat, a + b) == ScanSlots(ScanSlots(p, cat, a), cat, b)
    decreases |a|
  {
    if |a| > 0 {
      var next := ScanSlot(p, cat, a[0]);
      assert (a + b)[0] == a[0];
      assert (a + b)[1..] == a[1..] + b;
      ScanSlotsAppend(next, cat, a[1..], b);
    } else {
      assert a + b == b;
    }
  }

  /** A slot with an ID of at most 1, a non-positive quantity, or a
      canonical ID different from its own without note value 799 has no
      effect at all: the event behaves as if the slot were not there. */
  lemma RejectedSlotIgnored(p: Plugin, cat: ItemCatalog, containerId: int, before: seq<Item>, it: Item, after: seq<Item>)
    requires it.id <= 1 || it.quantity <= 0 || (it.id != cat.canonicalize(it.id) && cat.note(it.id) != 799)
    ensures OnItemContainerChanged(p, cat, containerId, before + [it] + after)
         == OnItemContainerChanged(p, cat, containerId, before + after)
  {
    if containerId in OWNED_INVENTORY_IDS {
      ScanSlotsAppend(p, cat, before + [it], after);
      ScanSlotsAppend(p, cat, before, [it]);
      ScanSlotsAppend(p, cat, before, after);
      var q := ScanSlots(p, cat, before);
      assert ScanSlots(q, cat, [it]) == ScanSlots(q, cat, []);
    }
  }

  /** The noted-item rule on a one-slot event from an allow-listed
      container: the registry grows exactly when the slot qualifies and its
      canonical ID is new, and what is appended is the canonical ID. */
  lemma SingleSlotEvent(p: Plugin, cat: ItemCatalog, containerId: int, it: Item)
    requires containerId in OWNED_INVENTORY_IDS
    ensures OnItemContainerChanged(p, cat, containerId, [it]).unlocked
         == if (it.id == cat.canonicalize(it.id) || cat.note(it.id) == 799)
               && it.id > 1 && it.quantity > 0
               && cat.canonicalize(it.id) !in p.unlocked
            then p.unlocked + [cat.canonicalize(it.id)]
            else p.unlocked
  {
    var next := ScanSlot(p, cat, it);
    assert [it][1..] == [];
    assert ScanSlots(p, cat, [it]) == ScanSlots(next, cat, []);
  }

  /** Delivering the same event twice changes nothing the second time. */
  lemma ScanIdempotent(p: Plugin, cat: ItemCatalog, containerId: int, slots: seq<Item>)
    ensures var q := OnItemContainerChanged(p, cat, containerId, slots);
            OnItemContainerChanged(q, cat, containerId, slots) == q
  {
    if containerId in OWNED_INVENTORY_IDS {
      var q := ScanSlots(p, cat, slots);
      ScanSlotsContents(p, cat, slots);
      ScanSlotsCovered(q, cat, slots);
    }
  }

  /** `unlockDefaultItems`: coins, then the bond, each queued in turn. */
  function UnlockDefaultItems(p: Plugin): (r: Plugin)
    ensures r.unlocked == p.unlocked + [COINS_995, OLD_SCHOOL_BOND]
    ensures r.notices == p.notices + [COINS_995, OLD_SCHOOL_BOND]
    ensures r.sep == p.sep
    ensures r.file.Failing? <==> p.file.Failing?
    ensures !p.file.Failing? ==> r.file == Present(RecordText(r.unlocked, r.sep))
  {
    QueueItemUnlock(QueueItemUnlock(p, COINS_995), OLD_SCHOOL_BOND)
  }

  /** `loadPlayerUnlocks`: clear the registry; with no record, create one
      and seed the defaults; otherwise read the record line by line until
      the first line that does not parse. */
  function LoadPlayerUnlocks(p: Plugin): (r: Plugin)
    ensures r.sep == p.sep
    ensures p.file.Absent? ==>
              && r.unlocked == [COINS_995, OLD_SCHOOL_BOND]
              && r.notices == p.notices + [COINS_995, OLD_SCHOOL_BOND]
              && r.file == Present("995" + SeparatorText(p.sep) + "13190" + SeparatorText(p.sep))
    ensures p.file.Present? ==>
              var lines := ReadLines(p.file.text);
              && r.file == p.file
              && r.notices == p.notices
              && |r.unlocked| <= |lines|
              && (forall k :: 0 <= k < |r.unlocked| ==> ParseInt(lines[k]) == Some(r.unlocked[k]))
              && (|r.unlocked| < |lines| ==> ParseInt(lines[|r.unlocked|]) == None)
    ensures p.file.Failing? ==> r.unlocked == [] && r.notices == p.notices && r.file == p.file
  {
    var cleared := p.(unlocked := []);
    match p.file
    case Failing => cleared
    case Absent =>
      DefaultRecordText(p.sep);
      UnlockDefaultItems(cleared.(file := Present("")))
    case Present(text) => cleared.(unlocked := RecordItems(text))
  }

  lemma DefaultRecordText(sep: LineSeparator)
    ensures RecordText([COINS_995, OLD_SCHOOL_BOND], sep)
         == "995" + SeparatorText(sep) + "13190" + SeparatorText(sep)
  {
    assert NatDigits(995) == "995" by {
      assert NatDigits(9) == "9";
      assert NatDigits(99) == "99";
    }
    assert NatDigits(13190) == "13190" by {
      assert NatDigits(1) == "1";
      assert NatDigits(13) == "13";
      assert NatDigits(131) == "131";
      assert NatDigits(1319) == "1319";
    }
    var lines := Serialize([COINS_995, OLD_SCHOOL_BOND]);
    assert lines == ["995", "13190"];
    assert lines[1..] == ["13190"];
    assert lines[1..][1..] == [];
    var s := SeparatorText(sep);
    assert WriteLines(lines[1..][1..], sep) == "";
    assert WriteLines(lines[1..], sep) == "13190" + s;
    assert WriteLines(lines, sep) == "995" + s + ("13190" + s);
  }

  /** Loading right after a save reproduces the saved state exactly. */
  lemma LoadAfterSave(p: Plugin)
    requires !p.file.Failing?
    ensures LoadPlayerUnlocks(SavePlayerUnlocks(p)) == SavePlayerUnlocks(p)
  {
    RecordRoundTrip(p.unlocked, p.sep);
  }
}

=== FILE: decimal.dfy ===
/** Decimal text for Java `int` values: `Integer.toString` (which is what
    `PrintWriter.println(int)` writes) and `Integer.parseInt` (radix 10).
    Only the ASCII digits '0'..'9' are modelled. */
module Decimal {
  import opened Optional

  const MIN_INT: int := -0x8000_0000
  const MAX_INT: int := 0x7fff_ffff

  /** A Java `int`. */
  type Int32 = x: int | MIN_INT <= x <= MAX_INT

  predicate IsDigit(c: char) {
    '0' <= c <= '9'
  }

  predicate AllDigits(s: string) {
    forall i :: 0 <= i < |s| ==> IsDigit(s[i])
  }

  function DigitValue(c: char): (d: nat)
    requires IsDigit(c)
    ensures d < 10
  {
    (c as int) - ('0' as int)
  }

  function DigitChar(d: nat): (c: char)
    requires d < 10
    ensures IsDigit(c) && DigitValue(c) == d
  {
    (('0' as int) + d) as char
  }

  /** The value of a string of decimal digits, most significant first. */
  function DigitsValue(s: string): nat
    requires AllDigits(s)
  {
    if |s| == 0 then 0 else 10 * DigitsValue(s[..|s| - 1]) + DigitValue(s[|s| - 1])
  }

  /** Non-empty digits without a redundant leading zero. */
  predicate CanonicalDigits(d: string) {
    |d| > 0 && AllDigits(d) && (d[0] != '0' || |d| == 1)
  }

  /** The shape `Integer.toString` produces: canonical digits, with a minus
      sign in front of any non-zero magnitude that is negative. */
  predicate CanonicalDecimal(s: string) {
    CanonicalDigits(s) || (|s| > 1 && s[0] == '-' && CanonicalDigits(s[1..]) && s[1] != '0')
  }

  /** The digits of a non-negative number, without leading zeros. */
  function NatDigits(n: nat): (s: string)
    ensures CanonicalDigits(s)
    ensures s[0] == '0' <==> n == 0
  {
    if n < 10 then [DigitChar(n)] else NatDigits(n / 10) + [DigitChar(n % 10)]
  }

  /** `Integer.toString(n)`. */
  function ToDecimal(n: int): (s: string)
    ensures CanonicalDecimal(s)
  {
    if n < 0 then "-" + NatDigits(-n) else NatDigits(n)
  }

  /** `Integer.parseInt(s)`: an optional '+' or '-' followed by at least one
      digit, whose value lies in the `int` range; `None` stands for the
      `NumberFormatException` thrown otherwise. */
  function ParseInt(s: string): (r: Option<Int32>)
    ensures r.Some? ==> |s| > 0 && (IsDigit(s[0]) || s[0] == '+' || s[0] == '-')
    ensures r.Some? && r.value < 0 ==> s[0] == '-'
  {
    if |s| == 0 then None
    else if s[0] == '-' || s[0] == '+' then
      var digits := s[1..];
      if |digits| == 0 || !AllDigits(digits) then None
      else
        var magnitude: int := DigitsValue(digits);
        var v := if s[0] == '-' then -magnitude else magnitude;
        if MIN_INT <= v <= MAX_INT then Some(v) else None
    else if !AllDigits(s) then None
    else if DigitsValue(s) <= MAX_INT then Some(DigitsValue(s))
    else None
  }

  lemma {:induction false} NatDigitsValue(n: nat)
    ensures DigitsValue(NatDigits(n)) == n
  {
    if n >= 10 {
      var s := NatDigits(n);
      assert s[..|s| - 1] == NatDigits(n / 10);
      NatDigitsValue(n / 10);
    }
  }

  /** Printing then parsing gives back every `int`. */
  lemma ParseToDecimal(n: Int32)
    ensures ParseInt(ToDecimal(n)) == Some(n)
  {
    var s := ToDecimal(n);
    if n < 0 {
      var m: nat := -(n as int);
      assert s[1..] == NatDigits(m);
      NatDigitsValue(m);
    } else {
      NatDigitsValue(n);
    }
  }

  lemma {:induction false} LeadingNonZeroPositive(d: string)
    requires |d| > 0 && AllDigits(d) && d[0] != '0'
    ensures DigitsValue(d) > 0
  {
    if |d| > 1 {
      LeadingNonZeroPositive(d[..|d| - 1]);
    }
  }

  lemma {:induction false} CanonicalDigitsRoundTrip(d: string)
    requires CanonicalDigits(d)
    ensures NatDigits(DigitsValue(d)) == d
  {
    if |d| > 1 {
      var init := d[..|d| - 1];
      var c := d[|d| - 1];
      LeadingNonZeroPositive(init);
      CanonicalDigitsRoundTrip(init);
      var n := DigitsValue(d);
      assert n == 10 * DigitsValue(init) + DigitValue(c);
      assert n / 10 == DigitsValue(init) && n % 10 == DigitValue(c);
      assert DigitChar(DigitValue(c)) == c;
      assert d == init + [c];
    } else {
      assert DigitChar(DigitValue(d[0])) == d[0];
    }
  }

  /** A line that parses is exactly the printed form of its value if and
      only if it is in canonical form: no '+', no leading zero, no "-0". */
  lemma ParsedIsPrintedIffCanonical(s: string)
    requires ParseInt(s).Some?
    ensures ToDecimal(ParseInt(s).value) == s <==> CanonicalDecimal(s)
  {
    var n := ParseInt(s).value;
    if CanonicalDecimal(s) {
      if CanonicalDigits(s) {
        CanonicalDigitsRoundTrip(s);
      } else {
        var d := s[1..];
        CanonicalDigitsRoundTrip(d);
        LeadingNonZeroPositive(d);
        assert s == "-" + d;
      }
    }
  }
}

=== FILE: exchangemask.dfy ===
/** Greying out Grand Exchange search results whose item is not unlocked:
    the `onGameTick` walk over the children of widget (162, 53). */
module ExchangeMask {
  import opened Optional

  const DIMMED_OPACITY: int := 70

  /** The fields of a result widget the plugin reads or writes. */
  datatype Widget = Widget(itemId: int, hidden: bool, opacity: int)

  /** The children array of the result list; `None` is a null entry. The
      results come in groups of three, the third carrying the item. */
  type Children = seq<Option<Widget>>

  /** Which of the widgets the tick consults are loaded, and whether the
      offer window is hidden. */
  datatype ExchangeWidgets = ExchangeWidgets(
    windowLoaded: bool, windowHidden: bool, chatboxLoaded: bool, listLoaded: bool)

  /** The tick acts only with the offer window loaded and shown, the chat
      box loaded, and widget (162, 53) present. */
  predicate Active(w: ExchangeWidgets) {
    w.windowLoaded && w.chatboxLoaded && !w.windowHidden && w.listLoaded
  }

  /** The entries the tick dereferences without a null check are non-null:
      in every complete group with a non-null head, the third widget (whose
      item ID is always read) and, when that item is not unlocked, the
      second widget (which is then dimmed). */
  predicate WellFormed(unlocked: seq<int>, c: Children) {
    forall i :: 0 <= i < |c| && i % 3 == 0 && c[i].Some? && i + 2 < |c| ==>
      c[i + 2].Some? && (c[i + 2].value.itemId !in unlocked ==> c[i + 1].Some?)
  }

  /** The group starting at `h` is complete, has a head, and shows an item
      that is not unlocked. */
  predicate Locked(unlocked: seq<int>, c: Children, h: nat)
    requires WellFormed(unlocked, c)
    requires h < |c| && h % 3 == 0
  {
    c[h].Some? && h + 2 < |c| && c[h + 2].value.itemId !in unlocked
  }

  /** What entry `k` should look like after the tick: in a locked group the
      head is hidden and the other two are dimmed; everything else is left
      as it was. */
  function MaskedAt(unlocked: seq<int>, c: Children, k: nat): (w: Option<Widget>)
    requires WellFormed(unlocked, c)
    requires k < |c|
    ensures w.Some? <==> c[k].Some?
    ensures w.Some? ==> w.value.itemId == c[k].value.itemId
  {
    var h := k - k % 3;
    if Locked(unlocked, c, h) then
      if k == h then Some(c[k].value.(hidden := true))
      else Some(c[k].value.(opacity := DIMMED_OPACITY))
    else c[k]
  }

  /** The whole listing after the tick. Null entries stay null, item IDs
      never change, and only `hidden` and `opacity` are ever written. */
  function Masked(unlocked: seq<int>, c: Children): (r: Children)
    requires WellFormed(unlocked, c)
    ensures |r| == |c|
    ensures forall k :: 0 <= k < |c| ==> (r[k].Some? <==> c[k].Some?)
    ensures forall k :: 0 <= k < |c| && c[k].Some? ==> r[k].value.itemId == c[k].value.itemId
    ensures WellFormed(unlocked, r)
  {
    seq(|c|, k requires 0 <= k < |c| => MaskedAt(unlocked, c, k))
  }

  /** The `for (i = 0; i < children.length; i += 3)` loop, writing the
      widgets of each locked group in place. */
  method MaskListing(unlocked: seq<int>, c: Children) returns (r: Children)
    requires WellFormed(unlocked, c)
    ensures r == Masked(unlocked, c)
  {
    r := c;
    var i := 0;
    while i < |c|
      invariant i % 3 == 0
      invariant |r| == |c|
      invariant forall k :: 0 <= k < |c| ==> r[k] == if k < i then MaskedAt(unlocked, c, k) else c[k]
    {
      var before := r;
      if r[i].None? {
      } else if i + 2 > |r| - 1 {
      } else if r[i + 2].value.itemId !in unlocked {
        r := r[i := Some(r[i].value.(hidden := true))];
        r := r[i + 1 := Some(r[i + 1].value.(opacity := DIMMED_OPACITY))];
        r := r[i + 2 := Some(r[i + 2].value.(opacity := DIMMED_OPACITY))];
      }
      MaskGroupStep(unlocked, c, before, r, i);
      i := i + 3;
    }
  }

  /** One pass of the loop body masks exactly the group at `i`. */
  lemma MaskGroupStep(unlocked: seq<int>, c: Children, before: Children, after: Children, i: nat)
    requires WellFormed(unlocked, c)
    requires i % 3 == 0 && i < |c| && |before| == |c|
    requires forall k :: 0 <= k < |c| ==> before[k] == if k < i then MaskedAt(unlocked, c, k) else c[k]
    requires after == if before[i].Some? && i + 2 < |c| && before[i + 2].value.itemId !in unlocked then
                         before[i := Some(before[i].value.(hidden := true))]
                               [i + 1 := Some(before[i + 1].value.(opacity := DIMMED_OPACITY))]
                               [i + 2 := Some(before[i + 2].value.(opacity := DIMMED_OPACITY))]
                       else before
    ensures |after| == |c|
    ensures forall k :: 0 <= k < |c| ==> after[k] == if k < i + 3 then MaskedAt(unlocked, c, k) else c[k]
  {
    forall k | 0 <= k < |c|
      ensures after[k] == if k < i + 3 then MaskedAt(unlocked, c, k) else c[k]
    {
      if i <= k < i + 3 {
        assert k - k % 3 == i;
      }
    }
  }

  /** `onGameTick`: nothing at all happens unless every gate is open and
      the children array is non-null. */
  method OnGameTick(w: ExchangeWidgets, unlocked: seq<int>, children: Option<Children>)
    returns (r: Option<Children>)
    requires Active(w) && children.Some? ==> WellFormed(unlocked, children.value)
    ensures !Active(w) || children.None? ==> r == children
    ensures Active(w) && children.Some? ==> r == Some(Masked(unlocked, children.value))
  {
    if !w.windowLoaded || !w.chatboxLoaded || w.windowHidden {
      return children;
    }
    if !w.listLoaded {
      return children;
    }
    if children.None? {
      return None;
    }
    var masked := MaskListing(unlocked, children.value);
    return Some(masked);
  }

  /** A second tick over an already masked listing changes nothing. */
  lemma MaskIdempotent(unlocked: seq<int>, c: Children)
    requires WellFormed(unlocked, c)
    ensures Masked(unlocked, Masked(unlocked, c)) == Masked(unlocked, c)
  {
  }

  /** Groups that are complete, headed and unlocked are left untouched;
      a group is changed only if its item is not unlocked. */
  lemma MaskChangesOnlyLockedGroups(unlocked: seq<int>, c: Children, h: nat)
    requires WellFormed(unlocked, c)
    requires h % 3 == 0 && h + 2 < |c| && c[h].Some?
    ensures c[h + 2].value.itemId in unlocked ==> Masked(unlocked, c)[h..h + 3] == c[h..h + 3]
    ensures c[h + 2].value.itemId !in unlocked ==>
              && Masked(unlocked, c)[h] == Some(c[h].value.(hidden := true))
              && Masked(unlocked, c)[h + 1] == Some(c[h + 1].value.(opacity := 70))
              && Masked(unlocked, c)[h + 2] == Some(c[h + 2].value.(opacity := 70))
  {
    GroupHead(h, h);
    GroupHead(h, h + 1);
    GroupHead(h, h + 2);
    var m := Masked(unlocked, c);
    assert m[h] == MaskedAt(unlocked, c, h);
    assert m[h + 1] == MaskedAt(unlocked, c, h + 1);
    assert m[h + 2] == MaskedAt(unlocked, c, h + 2);
  }

  /** Every entry of a group has the group's first index as its head. */
  lemma GroupHead(h: nat, k: nat)
    requires h % 3 == 0 && h <= k < h + 3
    ensures k - k % 3 == h
  {
  }

  /** Unlocking more items never masks more: any entry the tick changes
      under the larger registry it changes identically under the smaller. */
  lemma MaskAntitone(small: seq<int>, large: seq<int>, c: Children, k: nat)
    requires WellFormed(small, c)
    requires forall x :: x in small ==> x in large
    requires k < |c|
    ensures WellFormed(large, c)
    ensures Masked(large, c)[k] != c[k] ==> Masked(small, c)[k] == Masked(large, c)[k]
  {
  }
}

=== FILE: linetext.dfy ===
/** Text files as lines: what `PrintWriter.println` writes and what a
    `BufferedReader.readLine` loop reads back. */
module LineText {

  /** The platform line separator `println` appends. */
  datatype LineSeparator = LF | CRLF

  function SeparatorText(sep: LineSeparator): string {
    match sep
    case LF => "\n"
    case CRLF => "\r\n"
  }

  /** `readLine` treats '\n', '\r' and "\r\n" as line terminators. */
  predicate IsBreak(c: char) {
    c == '\n' || c == '\r'
  }

  predicate SingleLine(s: string) {
    forall i :: 0 <= i < |s| ==> !IsBreak(s[i])
  }

  /** The file contents after `println(line)` for each line in turn. */
  function WriteLines(lines: seq<string>, sep: LineSeparator): string {
    if |lines| == 0 then "" else lines[0] + SeparatorText(sep) + WriteLines(lines[1..], sep)
  }

  /** Index of the first line terminator in `t`, or `|t|` if there is none. */
  function LineEnd(t: string): (k: nat)
    ensures k <= |t|
    ensures SingleLine(t[..k])
    ensures k < |t| ==> IsBreak(t[k])
  {
    if |t| == 0 || IsBreak(t[0]) then 0 else 1 + LineEnd(t[1..])
  }

  /** The successive non-null results of `readLine` on a reader over `t`:
      the last line need not be terminated, and an empty remainder ends the
      stream. */
  function ReadLines(t: string): (lines: seq<string>)
    ensures forall i :: 0 <= i < |lines| ==> SingleLine(lines[i])
    decreases |t|
  {
    if |t| == 0 then []
    else
      var k := LineEnd(t);
      var rest: string :=
        if k == |t| then ""
        else if t[k] == '\r' && k + 1 < |t| && t[k + 1] == '\n' then t[k + 2..]
        else t[k + 1..];
      [t[..k]] + ReadLines(rest)
  }

  lemma {:induction false} LineEndAfter(line: string, rest: string)
    requires SingleLine(line)
    requires |rest| > 0 && IsBreak(rest[0])
    ensures LineEnd(line + rest) == |line|
  {
    if |line| > 0 {
      assert (line + rest)[1..] == line[1..] + rest;
      LineEndAfter(line[1..], rest);
    }
  }

  /** One `readLine` call consumes a line and its terminator. */
  lemma ReadOneLine(line: string, sep: LineSeparator, tail: string)
    requires SingleLine(line)
    ensures ReadLines(line + SeparatorText(sep) + tail) == [line] + ReadLines(tail)
  {
    var t := line + SeparatorText(sep) + tail;
    assert t == line + (SeparatorText(sep) + tail);
    LineEndAfter(line, SeparatorText(sep) + tail);
    assert t[..|line|] == line;
    match sep
    case LF =>
      assert t[|line| + 1..] == tail;
    case CRLF =>
      assert t[|line|] == '\r' && t[|line| + 1] == '\n';
      assert t[|line| + 2..] == tail;
  }

  /** Reading back what was written yields the same lines, for either line
      separator, provided no line itself contains a terminator. */
  lemma {:induction false} ReadWriteLines(lines: seq<string>, sep: LineSeparator)
    requires forall i :: 0 <= i < |lines| ==> SingleLine(lines[i])
    ensures ReadLines(WriteLines(lines, sep)) == lines
  {
    if |lines| > 0 {
      ReadOneLine(lines[0], sep, WriteLines(lines[1..], sep));
      ReadWriteLines(lines[1..], sep);
    }
  }
}

=== FILE: optional.dfy ===
/** A Java value that may be absent: `None` stands for a null reference or
    for a call that threw, `Some` for a value that is present. */
module Optional {

  datatype Option<+T> = None | Some(value: T)

}

=== FILE: scenario.dfy ===
/** A concrete session: a new profile is seeded, an inventory event
    unlocks one item (once, although it arrives both unnoted and noted), the
    record reloads to the same registry, and a Grand Exchange tick greys out
    only the result whose item is still locked. */
module Scenario {
  import opened Optional
  import opened Decimal
  import opened LineText
  import opened UnlockRecord
  import opened Bronzeman
  import opened ExchangeMask

  /** 1206 is the noted form of 1205; 1207 is some other variant linked to
      1205 (a placeholder, say) whose note value is not 799. */
  const Catalog: ItemCatalog :=
    ItemCatalog(
      x => if x == 1206 || x == 1207 then 1205 else x,
      x => if x == 1206 then 799 else -1)

  const NewProfile: Plugin := Plugin([], [], Absent, LF)

  const Inventory: seq<Item> := [Item(1207, 1), Item(1205, 1), Item(-1, 0), Item(1206, 5)]

  lemma NewProfileSession()
    ensures var p := OnItemContainerChanged(LoadPlayerUnlocks(NewProfile), Catalog, 93, Inventory);
            && p.unlocked == [995, 13190, 1205]
            && p.notices == [995, 13190, 1205]
            && p.file.Present?
            && RecordItems(p.file.text) == p.unlocked
            && LoadPlayerUnlocks(p) == p
  {
    var p1 := LoadPlayerUnlocks(NewProfile);
    assert p1.unlocked == [995, 13190] && p1.notices == [995, 13190] && p1.file.Present?;
    InventoryScan(p1);
    var p5 := ScanSlots(p1, Catalog, Inventory);
    assert OnItemContainerChanged(p1, Catalog, 93, Inventory) == p5;
    RecordRoundTrip(p5.unlocked, p5.sep);
  }

  /** The inventory event on the seeded registry, slot by slot: only the
      unnoted 1205 is appended. */
  lemma InventoryScan(p: Plugin)
    requires p.unlocked == [995, 13190] && p.file.Present?
    ensures ScanSlots(p, Catalog, Inventory).unlocked == [995, 13190, 1205]
    ensures ScanSlots(p, Catalog, Inventory).notices == p.notices + [1205]
    ensures ScanSlots(p, Catalog, Inventory).file == Present(RecordText([995, 13190, 1205], p.sep))
  {
    var s := Inventory;
    var p2 := ScanSlot(p, Catalog, s[0]);
    assert p2 == p;
    var p3 := ScanSlot(p2, Catalog, s[1]);
    assert p3.unlocked == [995, 13190, 1205];
    var p4 := ScanSlot(p3, Catalog, s[2]);
    assert p4 == p3;
    var p5 := ScanSlot(p4, Catalog, s[3]);
    assert p5 == p4;
    assert s[1..][1..][1..][1..] == [];
    assert ScanSlots(p, Catalog, s) == p5 by {
      assert ScanSlots(p4, Catalog, s[3..]) == ScanSlots(p5, Catalog, []);
      assert s[3..] == s[1..][1..][1..];
    }
  }

  /** The load does not drop repeated lines: a record holding one ID twice
      yields a registry holding it twice. */
  lemma DuplicateLinesKept()
    ensures RecordItems("5\n5\n") == [5, 5]
  {
    var t := "5\n5\n";
    assert LineEnd(t[2..][1..]) == 0;
    assert LineEnd(t[2..]) == 1;
    assert LineEnd(t[1..]) == 0;
    assert LineEnd(t) == 1;
    assert t[2..][..1] == "5" && t[2..][2..] == t[4..];
    assert ReadLines(t[4..]) == [];
    assert ReadLines(t[2..]) == ["5"];
    assert t[..1] == "5";
    assert ReadLines(t) == ["5", "5"];
    assert ParseInt("5") == Some(5);
  }

  const Listing: Children := [
    Some(Widget(-1, false, 0)), Some(Widget(-1, false, 0)), Some(Widget(1205, false, 0)),
    Some(Widget(-1, false, 0)), Some(Widget(-1, false, 0)), Some(Widget(999, false, 0)),
    Some(Widget(-1, false, 0)), Some(Widget(4151, false, 0))]

  lemma SessionTick()
    ensures Masked([995, 13190, 1205], Listing) == [
      Some(Widget(-1, false, 0)), Some(Widget(-1, false, 0)), Some(Widget(1205, false, 0)),
      Some(Widget(-1, true, 0)), Some(Widget(-1, false, 70)), Some(Widget(999, false, 70)),
      Some(Widget(-1, false, 0)), Some(Widget(4151, false, 0))]
  {
    var u: seq<int> := [995, 13190, 1205];
    var m := Masked(u, Listing);
    MaskChangesOnlyLockedGroups(u, Listing, 0);
    MaskChangesOnlyLockedGroups(u, Listing, 3);
    assert m[0..3] == Listing[0..3];
    assert m[6] == MaskedAt(u, Listing, 6) == Listing[6];
    assert m[7] == MaskedAt(u, Listing, 7) == Listing[7];
  }
}

=== FILE: unlockrecord.dfy ===
/** The per-profile unlock record: one decimal item ID per line, in
    registry order, rewritten in full on every save. */
module UnlockRecord {
  import opened Optional
  import opened Decimal
  import opened LineText

  /** The lines `savePlayerUnlocks` prints, one `println(itemId)` per item. */
  function Serialize(items: seq<Int32>): seq<string> {
    seq(|items|, k requires 0 <= k < |items| => ToDecimal(items[k]))
  }

  /** Every serialised line is a single canonical decimal line that parses
      back to its item. */
  lemma SerializedLinesParse(items: seq<Int32>)
    ensures |Serialize(items)| == |items|
    ensures forall k :: 0 <= k < |items| ==> ParseInt(Serialize(items)[k]) == Some(items[k])
    ensures forall k :: 0 <= k < |items| ==> SingleLine(Serialize(items)[k]) && CanonicalDecimal(Serialize(items)[k])
  {
    forall k | 0 <= k < |items|
      ensures ParseInt(ToDecimal(items[k])) == Some(items[k])
    {
      ParseToDecimal(items[k]);
    }
  }

  /** The `loadPlayerUnlocks` read loop: each line goes through
      `Integer.parseInt` and is appended; the first line that does not parse
      throws out of the loop, so the items read before it are kept and no
      later line is read. */
  function ParseLines(lines: seq<string>): (items: seq<Int32>)
    ensures |items| <= |lines|
    ensures forall k :: 0 <= k < |items| ==> ParseInt(lines[k]) == Some(items[k])
    ensures |items| < |lines| ==> ParseInt(lines[|items|]) == None
  {
    if |lines| == 0 then []
    else
      match ParseInt(lines[0])
      case None => []
      case Some(n) => [n] + ParseLines(lines[1..])
  }

  /** The file contents after a save with the given line separator. */
  function RecordText(items: seq<Int32>, sep: LineSeparator): string {
    WriteLines(Serialize(items), sep)
  }

  /** The registry read from an existing record: the values of the longest
      run of leading lines that parse, duplicates included. */
  function RecordItems(text: string): (items: seq<Int32>)
    ensures |items| <= |ReadLines(text)|
    ensures forall k :: 0 <= k < |items| ==> ParseInt(ReadLines(text)[k]) == Some(items[k])
    ensures |items| < |ReadLines(text)| ==> ParseInt(ReadLines(text)[|items|]) == None
  {
    ParseLines(ReadLines(text))
  }

  /** Parsing the serialised lines gives back the registry, in order. */
  lemma ParseSerialized(items: seq<Int32>)
    ensures ParseLines(Serialize(items)) == items
  {
    SerializedLinesParse(items);
  }

  /** Saving then loading, through the file text, gives back the registry. */
  lemma RecordRoundTrip(items: seq<Int32>, sep: LineSeparator)
    ensures RecordItems(RecordText(items, sep)) == items
  {
    SerializedLinesParse(items);
    ReadWriteLines(Serialize(items), sep);
    ParseSerialized(items);
  }

  /** A malformed line at index `j` after `j` good lines: the load yields
      exactly the values of those `j` lines, whatever follows. */
  lemma MalformedLineStopsLoad(good: seq<string>, bad: string, rest: seq<string>)
    requires forall k :: 0 <= k < |good| ==> ParseInt(good[k]).Some?
    requires ParseInt(bad) == None
    ensures |ParseLines(good + [bad] + rest)| == |good|
    ensures forall k :: 0 <= k < |good| ==> ParseLines(good + [bad] + rest)[k] == ParseInt(good[k]).value
  {
    var lines := good + [bad] + rest;
    var r := ParseLines(lines);
    assert forall k :: 0 <= k < |good| ==> lines[k] == good[k];
    assert lines[|good|] == bad;
  }
}
